=== FILE: README.md ===
# sleekture generation engine, in Dafny

This project models the generation engine of sleekture, a TypeScript library
that produces test data. The engine has three parts:

- **Fixture** (`src/fixture.ts`) owns a registry of builders keyed by type name
  and a cache of frozen or injected values. It answers `create(type)` and
  `createMany(type, size?)`, and it changes state through `customize`,
  `freeze`, `use` and `reset`.
- **TypeComposer** (`src/type-composer.ts`) queues `do` / `with` / `without`
  modifications. Its `create` obtains a base object from the context and
  replays the queue over that object in order.
- **ObjectBuilder** turns a template into an object. A string leaf goes to
  `context.create`. The single element of a one-element array leaf goes to
  `context.createMany`. A nested object is built recursively, and any other
  leaf is an error. Its
  source file is not part of this model. Its behaviour comes from the
  assertions of `src/__tests__/object-builder.test.ts`.

The model is functional. Values are a JSON-like `Values.Value` datatype.
Errors are an `Outcomes.Error` datatype that keeps the source's classes
(`TypeError`, `ReferenceError`, `Error`), returned in a `Result`. Everything
random or external enters as a parameter:

- A builder is `Customization.Builder(typeName, build)`. Invoking it with
  random draw `d` yields `build(d)`: a value, or the error the builder threw.
- The context that `ObjectBuilder` and `TypeComposer` ask for values is a pair
  of oracles, `Context.Context(create, createMany)`. Each oracle receives the
  index of the request in the stream of requests, so repeated requests can
  answer differently. `Fixture.AsContext` is the fixture itself in that
  role.
- The size generator's output is the parameter `generated`.

Modules: `Outcomes` (errors, `Result`), `Values`, `Template` (templates as
written), `Repetition` (the count rule and the repeat-until-failure loop that
every `createMany` shares), `Context`, `Customization`, `Fixture`,
`TypeComposer` and `ObjectBuilder`.

Two quirks of `src/fixture.ts` are modelled as written:

- The cache is read with a truthiness test (lines 29 and 47). A cached `0`,
  `""`, `false`, `null` or `undefined` is therefore ignored by `create` and
  does not stop a second `freeze`.
- A `size` of `0` is falsy, so it falls back to the generator (line 56). The
  composer does the same (line 122).

One more consequence of the code is kept: `createMany` on a type with no
builder fails only if the count is positive. With a count of zero the loop
never calls `create`.

Assumptions about files that are not part of this model:

- `utils.ts`: `isObject` holds for non-array objects and `isArray` holds for
  arrays.
- `customization.ts`: `add` overwrites the entry for the builder's type name.
- `object-builder.ts`: a one-element array leaf hands its element, whatever
  its kind, to `context.createMany`. `createMany` picks its count by the same
  truthiness rule as the fixture and the composer.
- `customization.ts` again: no builder is registered under a value that is
  not a string. So the fixture, acting as a context, fails a `createMany`
  request for such an element with a `ReferenceError` whenever the count is
  positive.

## Model

| member | source | states |
|---|---|---|
| Fixture.New | src/fixture.ts:12-16 | a new fixture has no builder and nothing cached |
| Repetition.Count | src/fixture.ts:56-58 | the count is a positive size as given; a size of 0 or no size defers to the generator; a negative request yields no element, as the loop never runs |
| Values.FalsyValues | src/fixture.ts:47 | exactly undefined, null, false, 0 and "" fail the cache's truthiness test |
| Customization.Add | src/fixture.ts:23 | add registers the builder under its own type name, replacing only that entry |
| Customization.Lookup | src/fixture.ts:43-45 | lookup finds a builder iff one is registered for the name, and returns that builder |
| Repetition.Repeat | src/fixture.ts:58-62 | the loop's result is the list of the n calls' results in call order; it succeeds iff every call succeeds, and otherwise it carries the error of the first failing call |
| Repetition.RepeatShifted | src/fixture.ts:58-62 | when call i is answered at draw + i, a failing loop carries the error of the first failing draw in range, and a successful one means every draw in range succeeded |
| Customization.LastFor | src/fixture.ts:22-26 | finds the last builder in a list that serves a type name, or reports that none of them serves it |
| Customization.AddAllLastWins | src/fixture.ts:22-26 | after registering a list of builders in order, each type resolves to the last listed builder for it, or to its earlier registration if none is listed |
| Fixture.Customize | src/fixture.ts:22-26 | customize changes no cache entry, and every lookup afterwards follows the last-registration-wins rule |
| Fixture.Create | src/fixture.ts:42-52 | create fails with a ReferenceError when no builder is registered, even if a value is cached; otherwise it returns a truthy cached value without invoking the builder, or else the builder's outcome, a thrown error included; so it fails iff there is no builder or the uncached build throws |
| Fixture.Freeze | src/fixture.ts:28-35 | freeze is a no-op when a truthy value is cached, even without a builder; otherwise it fails iff there is no builder or the build throws, with create's error; on success it caches the built value under the type and changes nothing else |
| Fixture.Use | src/fixture.ts:37-40 | use sets the cache entry for the type unconditionally, keeps every other entry, and keeps the registry |
| Fixture.Reset | src/fixture.ts:73-75 | reset empties the cache and keeps the registry |
| Fixture.CreateMany | src/fixture.ts:54-63 | on success the list has Count(size, generated) elements and element i is create(type) with draw + i; it fails iff one of those creates fails, with the error of the first that does; a type with no builder fails with NoBuilder exactly when the count is positive |
| Fixture.Build | src/fixture.ts:65-67 | build returns a composer for the type with an empty modification queue |
| Fixture.From | src/fixture.ts:69-71 | from accepts a template iff it is an object; otherwise it fails with a TypeError; the template, like a JavaScript object, holds each key once at every depth |
| Fixture.FromCreateSucceeds | src/fixture.ts:42-71 | from(template).create() through the fixture succeeds when every leaf is valid and every type the template asks for, by a string or a one-element array, has a registered builder that never fails or has a truthy cached value |
| Fixture.SuppliedAnswerable | src/fixture.ts:42-63 | a type with a registered builder that never fails or has a truthy cached value is answered successfully at every draw, through create and through createMany alike |
| Fixture.AsContext | src/fixture.ts:54-71 | the context build and from hand over is the fixture itself: its create is the fixture's create, and its createMany for a type name is the fixture's createMany with no size, whose count the generator gives afresh for each request; a createMany request for an element that is not a type name fails with a ReferenceError exactly when the count is positive |
| Fixture.BuildUnregisteredFails | src/fixture.ts:42-45 | build(type).create() for a type with no builder fails with the fixture's NoBuilder error, whatever is queued |
| Fixture.FromUnregisteredToken | src/fixture.ts:42-71 | from({key: type}).create() through the fixture, for a type with no builder, fails with the fixture's NoBuilder error for that type |
| Fixture.BuildPinnedObject | src/fixture.ts:47-49 | build(type).create() with nothing queued returns the object the cache pins for the type |
| Fixture.PinnedIgnoresBuilder | src/fixture.ts:47-49 | with a truthy cached value, create returns that value whatever the draw and whichever builder is registered, so the builder is not invoked |
| Fixture.UseThenCreate | src/fixture.ts:37-51 | after use, create still fails for an unregistered type, returns a truthy injected value, and ignores a falsy one in favour of the builder's outcome |
| Fixture.UseIsolated | src/fixture.ts:37-40 | use on one type leaves create's answer for every other type unchanged |
| Fixture.FreezePins | src/fixture.ts:28-49 | once freeze has cached a truthy value, every later create returns it and a second freeze changes nothing |
| Fixture.FreezeFalsyDoesNotPin | src/fixture.ts:28-51 | a falsy frozen value is ignored: create keeps invoking the builder, and a second freeze caches the new build, or fails with its error |
| Fixture.ResetThenCreate | src/fixture.ts:42-75 | after reset, create returns the builder's outcome again |
| Fixture.CreateManyPinned | src/fixture.ts:47-63 | when a truthy value is cached, createMany succeeds and every element is that value |
| TypeComposer.New | src/type-composer.ts:25-30 | a new composer is bound to its type and has an empty queue |
| TypeComposer.Do | src/type-composer.ts:37-44 | do keeps the type and the queued modifications, and appends exactly one do modification at the end |
| TypeComposer.With | src/type-composer.ts:52-60 | with keeps the type and the queued modifications, and appends exactly one with modification at the end |
| TypeComposer.Without | src/type-composer.ts:67-74 | without keeps the type and the queued modifications, and appends exactly one without modification at the end |
| TypeComposer.ArgumentFor | src/type-composer.ts:97-103 | a with action receives a copy when the current value is an array or an object, and the raw value otherwise; the argument always has the current value's contents |
| TypeComposer.Apply | src/type-composer.ts:85-109 | with fails with MissingProperty iff the current value is undefined, and otherwise changes only that property, setting it to the action's result; without removes only the named key and never fails; do yields the action's result |
| TypeComposer.Replay | src/type-composer.ts:85-109 | without do actions, replay adds no property and keeps every property that no modification names; a queue of only without modifications always succeeds |
| TypeComposer.Create | src/type-composer.ts:81-112 | a failing context request propagates; a base value that is not an object fails with NotComposable before any modification runs; success needs an object base and yields an object; with nothing queued the base object is returned unchanged; without do actions no property is added and every base property that no modification names keeps its value; a queue of only without modifications always succeeds on an object base |
| TypeComposer.CreateMany | src/type-composer.ts:120-129 | the list has Count(size, generated) elements and element i is create() answered by request draw + i; a failure is the error of the first of those creates that fails |
| TypeComposer.ReplayConcat | src/type-composer.ts:85-109 | replaying a + b equals replaying a and then replaying b on the object a produced, so modifications apply strictly in queue order |
| TypeComposer.EnqueueThenCreate | src/type-composer.ts:37-112 | queuing a modification only defers it: create with one more modification equals the old create followed by applying that modification |
| TypeComposer.NotAnObjectFailsFirst | src/type-composer.ts:82-83 | a base value that is not an object fails with a TypeError, whatever modifications are queued |
| TypeComposer.WithAfterWithoutFails | src/type-composer.ts:91-107 | a with on a property that an earlier without removed fails with a ReferenceError |
| TypeComposer.WithPresent | src/type-composer.ts:97-103 | a with on a present property sets it to the action's result on its current value |
| TypeComposer.WithoutTwice | src/type-composer.ts:105-107 | a second without of the same key does not fail and changes nothing |
| TypeComposer.WithMissingFails | src/type-composer.ts:91-95 | build(type).with(p, fn).create() fails with MissingProperty when the base object lacks p |
| ObjectBuilder.Classify | src/__tests__/object-builder.test.ts:185-216 | a leaf is a token iff it is a string, an array leaf iff it is an array of exactly one element (which it carries), a bad array iff it is an array whose length is not one, a nested template iff it is an object, and unsupported iff it is none of these |
| ObjectBuilder.New | src/__tests__/object-builder.test.ts:8-12 | construction succeeds iff the template is an object, and fails with a TypeError otherwise (null included); an object template holds each key once at every depth, as a JavaScript object does |
| ObjectBuilder.BuildLeaf | src/__tests__/object-builder.test.ts:79-127 | a string leaf makes one create request and takes its answer; a one-element array leaf makes one createMany request for its element and takes its list; a nested leaf mirrors its template; an invalid leaf fails with a plain Error; a failing create or createMany request fails the leaf with that request's error; on success every request was answered, and on failure the error is that of the first failing request, all earlier ones answered |
| ObjectBuilder.BuildProps | src/__tests__/object-builder.test.ts:129-174 | on success the object has exactly the template's keys, each value fits its template leaf at every depth, and the requests are exactly the template's leaves in order; it succeeds whenever the template is valid and the context answers every request the template makes; on a valid template a failure carries the error of the first failing request in template order |
| ObjectBuilder.Create | src/__tests__/object-builder.test.ts:14-77 | create returns an object that mirrors the template; it fails whenever some leaf, at any depth, is invalid, and succeeds when every leaf is valid and the context answers the template's requests; on success every request was answered, and on a valid template a failure is the error of the first failing request, every earlier one answered |
| ObjectBuilder.CreateN | src/__tests__/object-builder.test.ts:218-245 | n creates yield n objects, each mirroring the template, and make exactly n rounds of the template's requests; on success every round succeeded, and a failure is the error of the first failing round, every earlier round having succeeded |
| ObjectBuilder.CreateMany | src/__tests__/object-builder.test.ts:218-263 | createMany yields Count(size, generated) objects, element i being a create() result that mirrors the template with its requests starting after i rounds; it makes exactly that many rounds of the template's requests and fails on an invalid template when the count is positive; a failure is the error of the first failing create(), every earlier one having succeeded |
| ObjectBuilder.EmptyTemplate | src/__tests__/object-builder.test.ts:176-183 | an empty template yields an object with no properties and makes no request |
| ObjectBuilder.SingleToken | src/__tests__/object-builder.test.ts:79-102 | the template {key: token} makes exactly one create(token) request, and its answer is the property's value |
| ObjectBuilder.SingleArray | src/__tests__/object-builder.test.ts:104-127 | the template {key: [element]} makes exactly one createMany(element) request, whatever the element is, and its list is the property's value |
| ObjectBuilder.NestedTemplate | src/__tests__/object-builder.test.ts:35-56 | the template {outer: {inner: token}} yields {outer: {inner: answer}} |
| ObjectBuilder.MalformedLeafFails | src/__tests__/object-builder.test.ts:185-216 | an empty array, an array of two or more elements, or a number is accepted by the constructor and makes create fail with a plain Error |

## Left out

- Floating-point numbers: `Value.Num` holds integers only. `NaN` and `-0`, which are also falsy, are not modelled, and neither is a fractional `size`.
- Object identity and in-place mutation are not modelled. `create` hands out the cached object itself (`src/fixture.ts:48`), `freeze` makes it read-only with `Object.freeze` (`src/fixture.ts:32`), and the composer assigns and deletes properties on the context's object in place (`src/type-composer.ts:98-106`). The model's composer works on a copy, which changes two outcomes. For a frozen object, `build(type).with(…).create()` succeeds here, while the source throws a `TypeError` in strict-mode code (sloppy mode leaves the object unmodified). For an object injected with `use`, the source's `createMany` returns n references to one object modified n times, and the cached entry changes with them. The model returns n separately modified objects and leaves the cache as it was.
- Reference identity is not modelled, because values compare by contents. "Returns the identical cached instance" becomes "returns an equal value". A `with` action's shallow copy is shown by `TypeComposer.ArgumentFor` to have the same contents as the current value; under value semantics an action cannot alter the object through its argument.
- Reentrancy is not modelled. A builder may call back into the fixture through `build(this)`, but here its outcome, a failure included, is an input.
- `do` and `with` actions are pure functions. A `do` action maps the object's properties to new properties; a `with` action maps a value to a value. Actions that throw or have other side effects are not modelled.
- Properties inherited from `Object.prototype` (such as `toString`) are not modelled. Objects are maps of their own properties. This affects the plain-object cache, and it affects the composer's `with` check (`src/type-composer.ts:91`). That check reads `object[property]`, so in the source `with('toString', f)` on `{}` finds the inherited function and goes ahead, while the model reports `MissingProperty`. The special `__proto__` key is not modelled either.
- Template keys: a template lists its properties in JavaScript's enumeration order, and the caller writes index-like keys first and in ascending order. A JavaScript object cannot hold a key twice, so `ObjectBuilder.New` and `Fixture.From` require `Template.WellFormed`: every object template, at any depth, holds each key once.
- Fixture.AsContext: the draws are not independent. The elements of a `createMany` request made at request number `d` are built with draws `d`, `d + 1`, …, and later requests of the same template use those same draws. So values the source draws independently can coincide here: with a count of at least two, `{a: ["T"], b: "T"}` gives `b` the same value as `a[1]`. Separating the draws would need a pairing of request and element numbers, which the model does not define. The generator's counts, by contrast, are drawn afresh for every request.
- Request indices are a modelling device for randomness. `Fixture.CreateMany` gives draw `draw + i` to element i's builder. The indices of different calls are not tied to a single global random stream.
- `src/index.ts` (default builders and generator ranges), the leaf builders and the uuid-based string generator are not modelled. They are packaging or randomness. `object-builder.ts`, `utils.ts` and `customization.ts` are not part of this model; their behaviour is assumed as described above.
- TypeScript generics and typing are not modelled.

=== FILE: context.dfy ===
/** The generation context (`FixtureContext`) as seen by `ObjectBuilder` and
    `TypeComposer`: the two requests they make of it, supplied by the caller as
    oracles.

    The context produces fresh random data on every call, so each oracle also
    receives the index of the request in the stream of requests made to the
    context so far; two requests for the same token may therefore answer
    differently. A request may fail, as `Fixture.create` does for a type that
    has no builder.
 */
module Context {
  import opened Outcomes
  import opened Values
  import opened Template

  /** One request made to the context. A `createMany` request carries the
      template's array element as it was written, whatever its kind. */
  datatype Call = CreateCall(token: string) | CreateManyCall(element: Raw)

  datatype Context = Context(
    create: (string, nat) -> Result<Value>,
    createMany: (Raw, nat) -> Result<seq<Value>>)
}

=== FILE: customization.dfy ===
/** The builder registry (`Customization`): one builder per type name, the last
    registration for a name winning.

    `customization.ts` is not part of this model; its behaviour is taken from
    how the fixture uses it: `add(builder)` registers under `builder.type`,
    replacing any earlier builder for that name, and `get(type)` finds it.
 */
module Customization {
  import opened Outcomes
  import opened Values

  /** A `TypeBuilder`: the type name it serves and what building with a given
      random draw yields. The builder's randomness (and anything it asks of the
      fixture) is folded into the `draw`; a build may fail, as it does when it
      asks the fixture for a type that has no builder. */
  datatype Builder = Builder(typeName: string, build: nat -> Result<Value>)

  type Registry = map<string, Builder>

  /** `add(builder)`. */
  function Add(registry: Registry, builder: Builder): (r: Registry)
    ensures r.Keys == registry.Keys + {builder.typeName}
    ensures r[builder.typeName] == builder
    ensures forall t :: t in registry && t != builder.typeName ==> r[t] == registry[t]
  {
    registry[builder.typeName := builder]
  }

  /** `get(type)`: the builder registered for `typeName`, if any. */
  function Lookup(registry: Registry, typeName: string): (r: Option<Builder>)
    ensures r.Some? <==> typeName in registry
    ensures r.Some? ==> r.value == registry[typeName]
  {
    if typeName in registry then Some(registry[typeName]) else None
  }

  /** Registers each builder of `builders` in order (`customize`). */
  function AddAll(registry: Registry, builders: seq<Builder>): (r: Registry)
    decreases |builders|
  {
    if builders == [] then registry
    else Add(AddAll(registry, builders[..|builders| - 1]), builders[|builders| - 1])
  }

  /** The position of the last builder in `builders` serving `typeName`,
      searched from the end; `-1` when none serves it. */
  function LastIndex(builders: seq<Builder>, typeName: string): (i: int)
    ensures -1 <= i < |builders|
    ensures i >= 0 ==> builders[i].typeName == typeName
    ensures forall j :: i < j < |builders| ==> builders[j].typeName != typeName
    decreases |builders|
  {
    if builders == [] then -1
    else if builders[|builders| - 1].typeName == typeName then |builders| - 1
    else
      var front := builders[..|builders| - 1];
      assert forall j :: 0 <= j < |front| ==> front[j] == builders[j];
      LastIndex(front, typeName)
  }

  /** The last builder in `builders` serving `typeName`. */
  function LastFor(builders: seq<Builder>, typeName: string): (r: Option<Builder>)
    ensures r.None? <==> forall i :: 0 <= i < |builders| ==> builders[i].typeName != typeName
    ensures r.Some? ==>
      exists i :: 0 <= i < |builders| && builders[i] == r.value && r.value.typeName == typeName &&
        forall j :: i < j < |builders| ==> builders[j].typeName != typeName
  {
    var i := LastIndex(builders, typeName);
    if i < 0 then None else Some(builders[i])
  }

  /** The builder `typeName` should resolve to once `builders` are registered
      over `registry`: the last of them serving it, else the earlier entry. */
  function Resolve(registry: Registry, builders: seq<Builder>, typeName: string): Option<Builder>
  {
    match LastFor(builders, typeName)
    case Some(b) => Some(b)
    case None => Lookup(registry, typeName)
  }

  /** Registering a list of builders leaves, for every type name, the last
      builder of the list that serves it, and otherwise the earlier entry. */
  lemma {:induction false} AddAllLastWins(registry: Registry, builders: seq<Builder>, typeName: string)
    ensures Lookup(AddAll(registry, builders), typeName) == Resolve(registry, builders, typeName)
    decreases |builders|
  {
    if builders != [] {
      AddAllLastWins(registry, builders[..|builders| - 1], typeName);
    }
  }
}

=== FILE: fixture.dfy ===
/** `Fixture`: the orchestrator that owns the builder registry and the cache of
    frozen or injected values.

    Every operation is a function of the fixture's state. `create` does not
    change the state; `customize`, `freeze`, `use` and `reset` return the new
    one. A builder's outcome is an input of the model: builder `b` invoked with
    random draw `d` yields `b.build(d)`, a value or the error it threw.

    Two quirks of the source are kept as written: the cache is consulted with a
    truthiness test, so a cached `0`, `""`, `false`, `null` or `undefined`
    counts as no entry; and a `size` of `0` asks the generator for a count.
 */
module Fixture {
  import opened Outcomes
  import opened Values
  import opened Repetition
  import opened Customization
  import opened Template
  import Context
  import TypeComposer
  import ObjectBuilder

  datatype Fixture = Fixture(registry: Registry, cache: map<string, Value>)

  /** `new Fixture(generator)`: no builder, nothing cached. */
  function New(): (f: Fixture)
    ensures f.registry == map[] && f.cache == map[]
  {
    Fixture(map[], map[])
  }

  /** The cache entry `create` and `freeze` honour: present and truthy. */
  predicate Pinned(f: Fixture, typeName: string)
  {
    typeName in f.cache && Truthy(f.cache[typeName])
  }

  /** `customize(customization)`: registers the customization's builders in
      order; the cache is untouched. */
  function Customize(f: Fixture, builders: seq<Builder>): (r: Fixture)
    ensures r.cache == f.cache
    ensures forall t :: Lookup(r.registry, t) == Resolve(f.registry, builders, t)
  {
    var r := f.(registry := AddAll(f.registry, builders));
    forall t ensures Lookup(r.registry, t) == Resolve(f.registry, builders, t) {
      AddAllLastWins(f.registry, builders, t);
    }
    r
  }

  /** `create(type)` with random draw `draw` for the builder. The builder must
      be registered even when a value is cached; a truthy cached value is
      returned without invoking the builder; otherwise the builder's outcome,
      a thrown error included. */
  function Create(f: Fixture, typeName: string, draw: nat): (r: Result<Value>)
    ensures r.Err? <==> typeName !in f.registry || (!Pinned(f, typeName) && f.registry[typeName].build(draw).Err?)
    ensures typeName !in f.registry ==> r == Err(NoBuilder(typeName)) && r.error.Class() == ReferenceError
    ensures typeName in f.registry && Pinned(f, typeName) ==> r == Ok(f.cache[typeName])
    ensures typeName in f.registry && !Pinned(f, typeName) ==> r == f.registry[typeName].build(draw)
  {
    match Lookup(f.registry, typeName)
    case None => Err(NoBuilder(typeName))
    case Some(builder) =>
      if Pinned(f, typeName) then Ok(f.cache[typeName])
      else builder.build(draw)
  }

  /** `freeze(type)`: nothing happens when a truthy value is cached, even for a
      type without a builder; otherwise the value `create` produces is cached. */
  function Freeze(f: Fixture, typeName: string, draw: nat): (r: Result<Fixture>)
    ensures Pinned(f, typeName) ==> r == Ok(f)
    ensures !Pinned(f, typeName) ==>
      (r.Err? <==> typeName !in f.registry || f.registry[typeName].build(draw).Err?)
    ensures !Pinned(f, typeName) && r.Err? ==> Create(f, typeName, draw) == Err(r.error)
    ensures !Pinned(f, typeName) && r.Ok? ==>
      && r.value.registry == f.registry
      && r.value.cache.Keys == f.cache.Keys + {typeName}
      && f.registry[typeName].build(draw) == Ok(r.value.cache[typeName])
      && forall t :: t in f.cache && t != typeName ==> r.value.cache[t] == f.cache[t]
  {
    if Pinned(f, typeName) then Ok(f)
    else
      var v :- Create(f, typeName, draw);
      Ok(f.(cache := f.cache[typeName := v]))
  }

  /** `use(type, value)`: caches `value` for the type unconditionally. */
  function Use(f: Fixture, typeName: string, value: Value): (r: Fixture)
    ensures r.registry == f.registry
    ensures r.cache.Keys == f.cache.Keys + {typeName}
    ensures r.cache[typeName] == value
    ensures forall t :: t in f.cache && t != typeName ==> r.cache[t] == f.cache[t]
  {
    f.(cache := f.cache[typeName := value])
  }

  /** `reset()`: empties the cache and keeps the registry. */
  function Reset(f: Fixture): (r: Fixture)
    ensures r.registry == f.registry
    ensures r.cache == map[]
  {
    f.(cache := map[])
  }

  /** `createMany(type, size?)`: element `i` is `create(type)` with draw
      `draw + i`, and the first `create` that throws ends the loop with its
      error. With no builder and a count of zero nothing is created and
      nothing fails. */
  function CreateMany(f: Fixture, typeName: string, size: Option<int>, generated: int, draw: nat): (r: Result<seq<Value>>)
    ensures r.Ok? ==> |r.value| == Count(size, generated)
    ensures r.Ok? ==> forall i :: 0 <= i < |r.value| ==> Create(f, typeName, draw + i) == Ok(r.value[i])
    ensures r.Err? <==> exists d :: draw <= d < draw + Count(size, generated) && Create(f, typeName, d).Err?
    ensures r.Err? ==>
      exists d :: draw <= d < draw + Count(size, generated) && Create(f, typeName, d) == Err(r.error) &&
        forall e :: draw <= e < d ==> Create(f, typeName, e).Ok?
    ensures typeName !in f.registry && Count(size, generated) > 0 ==> r == Err(NoBuilder(typeName))
  {
    var n := Count(size, generated);
    var g := (d: nat) => Create(f, typeName, d);
    assert forall d: nat :: g(d) == Create(f, typeName, d);
    var call := Shifted(g, draw);
    var r := Repeat(n, call);
    RepeatShifted(n, g, draw);
    assert r.Ok? ==> forall i :: 0 <= i < |r.value| ==> Create(f, typeName, draw + i) == Ok(r.value[i]) by {
      if r.Ok? {
        forall i | 0 <= i < |r.value| ensures Create(f, typeName, draw + i) == Ok(r.value[i]) {
          assert call(i) == Ok(r.value[i]);
        }
      }
    }
    assert typeName !in f.registry && n > 0 ==> r == Err(NoBuilder(typeName)) by {
      if typeName !in f.registry && n > 0 {
        assert g(draw).Err?;
      }
    }
    r
  }

  /** `build(type)`: a composer for the type with an empty queue. */
  function Build(f: Fixture, typeName: string): (c: TypeComposer.Composer)
    ensures c.typeName == typeName && c.modifications == []
  {
    TypeComposer.New(typeName)
  }

  /** `from(template)`: an object builder bound to the template. */
  function From(f: Fixture, template: Raw): (r: Result<ObjectBuilder.ObjectBuilder>)
    requires WellFormed(template)
    ensures r.Ok? <==> template.RObj?
    ensures r.Err? ==> r.error.Class() == TypeError
  {
    ObjectBuilder.New(template)
  }

  /** The fixture as the generation context it hands to the composers and
      object builders it creates. `generate(d)` is what the generator answers
      when request `d` is a `createMany`: the generator is asked afresh for
      every request. A `createMany` request for a type name is the fixture's
      own `createMany` with no size. No builder is registered under an element
      that is not a type name, so such a request fails as a `createMany` of an
      unregistered type does: only when the count is positive. */
  function AsContext(f: Fixture, generate: nat -> int): (ctx: Context.Context)
    ensures forall t, d :: ctx.create(t, d) == Create(f, t, d)
    ensures forall t, d :: ctx.createMany(RStr(t), d) == CreateMany(f, t, None, generate(d), d)
    ensures forall e: Raw, d :: !e.RStr? ==> (ctx.createMany(e, d).Err? <==> Count(None, generate(d)) > 0)
    ensures forall e: Raw, d :: !e.RStr? && ctx.createMany(e, d).Err? ==> ctx.createMany(e, d).error.Class() == ReferenceError
  {
    Context.Context(
      (t: string, d: nat) => Create(f, t, d),
      (e: Raw, d: nat) =>
        if e.RStr? then CreateMany(f, e.s, None, generate(d), d)
        else if Count(None, generate(d)) > 0 then Err(NoBuilderForElement)
        else Ok([]))
  }

  /** `create(type)` never fails: a builder is registered, and either a truthy
      value is cached or the builder succeeds on every draw. */
  ghost predicate Supplies(f: Fixture, typeName: string)
  {
    typeName in f.registry && (Pinned(f, typeName) || forall d :: f.registry[typeName].build(d).Ok?)
  }

  /** A request the fixture can answer, as a context, whenever it is made. */
  ghost predicate Supplied(f: Fixture, c: Context.Call)
  {
    match c
    case CreateCall(t) => Supplies(f, t)
    case CreateManyCall(e) => e.RStr? && Supplies(f, e.s)
  }

  // ---------------------------------------------------------------------
  // Properties of the cache

  /** A truthy cached value is returned whatever the draw and whichever
      builder is registered for the type: the builder is not invoked. */
  lemma PinnedIgnoresBuilder(f: Fixture, typeName: string, other: Builder, d1: nat, d2: nat)
    requires typeName in f.registry && Pinned(f, typeName)
    ensures Create(f, typeName, d1) == Create(f.(registry := f.registry[typeName := other]), typeName, d2)
    ensures Create(f, typeName, d1) == Ok(f.cache[typeName])
  {
  }

  /** After `use(type, value)`: a type without a builder still fails; a truthy
      value is returned; a falsy one is ignored in favour of the builder. */
  lemma UseThenCreate(f: Fixture, typeName: string, value: Value, draw: nat)
    ensures Create(Use(f, typeName, value), typeName, draw) ==
      if typeName !in f.registry then Err(NoBuilder(typeName))
      else if Truthy(value) then Ok(value)
      else f.registry[typeName].build(draw)
  {
  }

  /** `use` on one type changes nothing `create` answers for another. */
  lemma UseIsolated(f: Fixture, typeName: string, value: Value, other: string, draw: nat)
    requires other != typeName
    ensures Create(Use(f, typeName, value), other, draw) == Create(f, other, draw)
  {
  }

  /** Once `freeze` has cached a truthy value, every later `create` returns it,
      and freezing again changes nothing. */
  lemma FreezePins(f: Fixture, typeName: string, d0: nat, d1: nat)
    requires Freeze(f, typeName, d0).Ok?
    requires Pinned(Freeze(f, typeName, d0).value, typeName)
    ensures Create(Freeze(f, typeName, d0).value, typeName, d1) == Create(f, typeName, d0)
    ensures Freeze(Freeze(f, typeName, d0).value, typeName, d1) == Freeze(f, typeName, d0)
  {
  }

  /** A falsy value the builder produced does not stick: `create` keeps
      invoking the builder, and a second `freeze` caches a new value. */
  lemma FreezeFalsyDoesNotPin(f: Fixture, typeName: string, d0: nat, d1: nat)
    requires typeName in f.registry && !Pinned(f, typeName)
    requires f.registry[typeName].build(d0).Ok? && !Truthy(f.registry[typeName].build(d0).value)
    ensures Freeze(f, typeName, d0).Ok?
    ensures Create(Freeze(f, typeName, d0).value, typeName, d1) == Create(f, typeName, d1)
    ensures Freeze(Freeze(f, typeName, d0).value, typeName, d1) ==
      match f.registry[typeName].build(d1)
      case Ok(v) => Ok(f.(cache := f.cache[typeName := v]))
      case Err(e) => Err(e)
  {
    var g := Freeze(f, typeName, d0).value;
    match f.registry[typeName].build(d1)
    case Ok(v) =>
      assert g.cache[typeName := v] == f.cache[typeName := v];
    case Err(_) =>
  }

  /** After `reset`, `create` is the builder's output again, whatever was
      frozen or injected before. */
  lemma ResetThenCreate(f: Fixture, typeName: string, draw: nat)
    requires typeName in f.registry
    ensures Create(Reset(f), typeName, draw) == f.registry[typeName].build(draw)
  {
  }

  /** A type pinned in the cache makes every element of `createMany` the
      pinned value. */
  lemma CreateManyPinned(f: Fixture, typeName: string, size: Option<int>, generated: int, draw: nat)
    requires typeName in f.registry && Pinned(f, typeName)
    ensures CreateMany(f, typeName, size, generated, draw).Ok?
    ensures forall v :: v in CreateMany(f, typeName, size, generated, draw).value ==> v == f.cache[typeName]
  {
    var xs := CreateMany(f, typeName, size, generated, draw).value;
    forall v | v in xs ensures v == f.cache[typeName] {
      var i :| 0 <= i < |xs| && xs[i] == v;
      assert Create(f, typeName, draw + i) == Ok(xs[i]);
    }
  }

  // ---------------------------------------------------------------------
  // The fixture as a context

  /** A composer from `build(type)` for a type without a builder fails with
      the fixture's `ReferenceError` at `create`, whatever is queued. */
  lemma BuildUnregisteredFails(f: Fixture, typeName: string, mods: seq<TypeComposer.Modification>, generate: nat -> int, draw: nat)
    requires typeName !in f.registry
    ensures TypeComposer.Create(Build(f, typeName).(modifications := mods), AsContext(f, generate), draw) ==
      Err(NoBuilder(typeName))
  {
  }

  /** `build(type).create()` with nothing queued returns the object the cache
      pins for the type. */
  lemma BuildPinnedObject(f: Fixture, typeName: string, generate: nat -> int, draw: nat)
    requires typeName in f.registry && Pinned(f, typeName) && IsObject(f.cache[typeName])
    ensures TypeComposer.Create(Build(f, typeName), AsContext(f, generate), draw) == Ok(f.cache[typeName])
  {
  }

  /** A request for a type the fixture supplies is answered successfully at
      every draw, through `create` and through `createMany` alike. */
  lemma SuppliedAnswerable(f: Fixture, generate: nat -> int, c: Context.Call)
    requires Supplied(f, c)
    ensures ObjectBuilder.Answerable(AsContext(f, generate), c)
  {
    var ctx := AsContext(f, generate);
    match c
    case CreateCall(t) =>
      forall d: nat ensures ctx.create(t, d).Ok? {
        assert ctx.create(t, d) == Create(f, t, d);
      }
    case CreateManyCall(e) =>
      forall d: nat ensures ctx.createMany(e, d).Ok? {
        var r := CreateMany(f, e.s, None, generate(d), d);
        assert ctx.createMany(e, d) == r;
        assert forall x :: d <= x < d + Count(None, generate(d)) ==> Create(f, e.s, x).Ok?;
      }
  }

  /** `from(template).create()` succeeds when every leaf of the template is
      valid and every type it asks for, through a string or a one-element
      array, is one the fixture supplies. */
  lemma FromCreateSucceeds(f: Fixture, template: Raw, generate: nat -> int, log: seq<Context.Call>)
    requires template.RObj? && WellFormed(template)
    requires ObjectBuilder.ValidProps(template.props)
    requires forall c :: c in ObjectBuilder.PropsCalls(template.props) ==> Supplied(f, c)
    ensures From(f, template).Ok?
    ensures ObjectBuilder.Create(From(f, template).value, AsContext(f, generate), log).Ok?
  {
    var ctx := AsContext(f, generate);
    forall c | c in ObjectBuilder.PropsCalls(template.props)
      ensures ObjectBuilder.Answerable(ctx, c)
    {
      SuppliedAnswerable(f, generate, c);
    }
    assert ObjectBuilder.AnswersAll(ctx, ObjectBuilder.PropsCalls(template.props));
  }

  /** `from({key: type}).create()` for a type without a builder fails with the
      fixture's `ReferenceError` for that type. */
  lemma FromUnregisteredToken(f: Fixture, key: string, typeName: string, generate: nat -> int, log: seq<Context.Call>)
    requires typeName !in f.registry
    ensures From(f, RObj([Prop(key, RStr(typeName))])).Ok?
    ensures ObjectBuilder.Create(From(f, RObj([Prop(key, RStr(typeName))])).value, AsContext(f, generate), log) ==
      Err(NoBuilder(typeName))
  {
    var ctx := AsContext(f, generate);
    var props := [Prop(key, RStr(typeName))];
    assert props[..0] == [];
    assert ctx.create(typeName, |log|) == Err(NoBuilder(typeName));
    assert ObjectBuilder.BuildProps(props[..0], ctx, log) == Ok(ObjectBuilder.Built(map[], log));
    assert ObjectBuilder.BuildLeaf(key, RStr(typeName), ctx, log) == Err(NoBuilder(typeName));
  }
}

=== FILE: object_builder.dfy ===
/** `ObjectBuilder`: turns a template into a concrete object, asking the
    context for the value of every leaf.

    `object-builder.ts` is not part of this model. Its behaviour is the one its
    test suite (`src/__tests__/object-builder.test.ts`) fixes: the constructor
    rejects a template that is not an object; `create` classifies every
    property of the template and sends a string to `context.create`, a
    one-element array's element to `context.createMany`, descends into a
    nested object and fails on anything else; `createMany` calls `create` once
    per element. Templates are the `Template.Raw` values.
 */
module ObjectBuilder {
  import opened Outcomes
  import opened Values
  import opened Context
  import opened Repetition
  import opened Template

  /** The classification of a template value before dispatch. */
  datatype Leaf =
    | TypeToken(token: string)
    | ArrayOf(element: Raw)
    | Nested(props: seq<Prop>)
    | BadArray(length: nat)
    | Unsupported

  /** An object builder bound to a template object. */
  datatype ObjectBuilder = ObjectBuilder(props: seq<Prop>)

  /** A value produced together with the requests made to the context, the
      earlier requests included. */
  datatype Built<+T> = Built(result: T, log: seq<Call>)

  function Classify(raw: Raw): (leaf: Leaf)
    ensures leaf.TypeToken? <==> raw.RStr?
    ensures leaf.ArrayOf? <==> raw.RArr? && |raw.items| == 1
    ensures leaf.ArrayOf? ==> leaf.element == raw.items[0]
    ensures leaf.Nested? <==> raw.RObj?
    ensures leaf.BadArray? <==> raw.RArr? && |raw.items| != 1
    ensures leaf.Unsupported? <==> !(raw.RStr? || raw.RArr? || raw.RObj?)
  {
    match raw
    case RStr(s) => TypeToken(s)
    case RArr(items) =>
      if |items| != 1 then BadArray(|items|) else ArrayOf(items[0])
    case RObj(props) => Nested(props)
    case _ => Unsupported
  }

  /** `new ObjectBuilder(template, context, generator)`. The template is a
      JavaScript value, so each of its objects, at any depth, holds each key
      once. */
  function New(template: Raw): (r: Result<ObjectBuilder>)
    requires WellFormed(template)
    ensures r.Ok? <==> template.RObj?
    ensures r.Ok? ==> r.value.props == template.props
    ensures r.Err? ==> r.error == NotATemplate && r.error.Class() == TypeError
  {
    if template.RObj? then Ok(ObjectBuilder(template.props)) else Err(NotATemplate)
  }

  // ---------------------------------------------------------------------
  // Reference definitions: what a template asks for

  /** Every value of the template, at every depth, is a valid leaf. */
  ghost predicate ValidLeaf(raw: Raw)
    decreases raw
  {
    match Classify(raw)
    case TypeToken(_) => true
    case ArrayOf(_) => true
    case Nested(props) => ValidProps(props)
    case BadArray(_) => false
    case Unsupported => false
  }

  ghost predicate ValidProps(props: seq<Prop>)
    decreases props
  {
    forall i :: 0 <= i < |props| ==> ValidLeaf(props[i].value)
  }

  /** The requests a valid template makes, in the order it makes them. */
  ghost function LeafCalls(raw: Raw): seq<Call>
    decreases raw
  {
    match Classify(raw)
    case TypeToken(t) => [CreateCall(t)]
    case ArrayOf(e) => [CreateManyCall(e)]
    case Nested(props) => PropsCalls(props)
    case _ => []
  }

  ghost function PropsCalls(props: seq<Prop>): seq<Call>
    decreases props
  {
    if props == [] then []
    else PropsCalls(props[..|props| - 1]) + LeafCalls(props[|props| - 1].value)
  }

  ghost function KeysOf(props: seq<Prop>): set<string>
  {
    set i | 0 <= i < |props| :: props[i].key
  }

  /** Property `i` is the last one with its key, the one whose value stays. */
  ghost predicate LastWithKey(props: seq<Prop>, i: int)
  {
    0 <= i < |props| && forall j :: i < j < |props| ==> props[j].key != props[i].key
  }

  /** `v` is what template value `raw` becomes when its first request to the
      context is request number `at`: the context's answer for a token, its
      list for a one-element array, and for a nested object an object that
      mirrors it. */
  ghost predicate Fits(raw: Raw, v: Value, ctx: Context, at: nat)
    decreases raw
  {
    match Classify(raw)
    case TypeToken(t) => ctx.create(t, at) == Ok(v)
    case ArrayOf(e) => v.Arr? && ctx.createMany(e, at) == Ok(v.items)
    case Nested(props) => v.Obj? && Mirrors(props, v.fields, ctx, at)
    case _ => false
  }

  /** `fields` has exactly the template's keys, and each key holds what its
      template value becomes. */
  ghost predicate Mirrors(props: seq<Prop>, fields: map<string, Value>, ctx: Context, at: nat)
    decreases props
  {
    && fields.Keys == KeysOf(props)
    && forall i {:trigger LastWithKey(props, i)} :: LastWithKey(props, i) ==> FitsAt(props, i, fields, ctx, at)
  }

  /** Property `i` of the template fits the object's value for its key, its
      requests starting after those of the properties before it. */
  ghost predicate FitsAt(props: seq<Prop>, i: int, fields: map<string, Value>, ctx: Context, at: nat)
    requires 0 <= i < |props| && props[i].key in fields
    decreases props, 0
  {
    Fits(props[i].value, fields[props[i].key], ctx, at + |PropsCalls(props[..i])|)
  }

  /** The context answers request `c` successfully whenever it is made. */
  ghost predicate Answerable(ctx: Context, c: Call)
  {
    match c
    case CreateCall(t) => forall d :: ctx.create(t, d).Ok?
    case CreateManyCall(e) => forall d :: ctx.createMany(e, d).Ok?
  }

  /** The context answers every request of `calls`, whenever it is made. */
  ghost predicate AnswersAll(ctx: Context, calls: seq<Call>)
  {
    forall c :: c in calls ==> Answerable(ctx, c)
  }

  /** Request `c`, made as request number `at`, is answered. */
  ghost predicate AnsweredAt(ctx: Context, c: Call, at: nat)
  {
    match c
    case CreateCall(t) => ctx.create(t, at).Ok?
    case CreateManyCall(e) => ctx.createMany(e, at).Ok?
  }

  /** Request `c`, made as request number `at`, fails with `e`. */
  ghost predicate FailsAt(ctx: Context, c: Call, at: nat, e: Error)
  {
    match c
    case CreateCall(t) => ctx.create(t, at) == Err(e)
    case CreateManyCall(el) => ctx.createMany(el, at) == Err(e)
  }

  /** Every request of `calls`, the first made as request number `at`, is
      answered. */
  ghost predicate AllAnswered(ctx: Context, calls: seq<Call>, at: nat)
  {
    forall k :: 0 <= k < |calls| ==> AnsweredAt(ctx, calls[k], at + k)
  }

  /** Made in order from request number `at` on, `calls` are answered until
      one fails with `e`. */
  ghost predicate FirstFailure(ctx: Context, calls: seq<Call>, at: nat, e: Error)
  {
    exists j :: 0 <= j < |calls| && FailsAt(ctx, calls[j], at + j, e) && AllAnswered(ctx, calls[..j], at)
  }

  lemma AllAnsweredConcat(ctx: Context, a: seq<Call>, b: seq<Call>, at: nat)
    requires AllAnswered(ctx, a, at) && AllAnswered(ctx, b, at + |a|)
    ensures AllAnswered(ctx, a + b, at)
  {
    forall k | 0 <= k < |a + b| ensures AnsweredAt(ctx, (a + b)[k], at + k) {
      if k < |a| {
        assert (a + b)[k] == a[k];
      } else {
        assert (a + b)[k] == b[k - |a|];
      }
    }
  }

  /** A failure among the first requests stays the first failure when more
      requests follow. */
  lemma FirstFailureBefore(ctx: Context, a: seq<Call>, b: seq<Call>, at: nat, e: Error)
    ensures FirstFailure(ctx, a, at, e) ==> FirstFailure(ctx, a + b, at, e)
  {
    if FirstFailure(ctx, a, at, e) {
      var j :| 0 <= j < |a| && FailsAt(ctx, a[j], at + j, e) && AllAnswered(ctx, a[..j], at);
      assert (a + b)[j] == a[j];
      assert (a + b)[..j] == a[..j];
    }
  }

  /** After requests that are all answered, the first failure of the rest is
      the first failure of the whole. */
  lemma FirstFailureAfter(ctx: Context, a: seq<Call>, b: seq<Call>, at: nat, e: Error)
    requires AllAnswered(ctx, a, at)
    ensures FirstFailure(ctx, b, at + |a|, e) ==> FirstFailure(ctx, a + b, at, e)
  {
    if FirstFailure(ctx, b, at + |a|, e) {
      var j :| 0 <= j < |b| && FailsAt(ctx, b[j], at + |a| + j, e) && AllAnswered(ctx, b[..j], at + |a|);
      assert (a + b)[|a| + j] == b[j];
      assert (a + b)[..|a| + j] == a + b[..j];
      AllAnsweredConcat(ctx, a, b[..j], at);
    }
  }

  // ---------------------------------------------------------------------
  // The builder

  /** The value of one template property; `log` holds the requests made so far. */
  function BuildLeaf(key: string, raw: Raw, ctx: Context, log: seq<Call>): (r: Result<Built<Value>>)
    ensures r.Ok? ==> r.value.log == log + LeafCalls(raw)
    ensures r.Ok? ==> Fits(raw, r.value.result, ctx, |log|)
    ensures r.Ok? ==> ValidLeaf(raw)
    ensures ValidLeaf(raw) && AnswersAll(ctx, LeafCalls(raw)) ==> r.Ok?
    ensures Classify(raw).BadArray? ==> r == Err(ArrayLeafLength(key, Classify(raw).length))
    ensures Classify(raw).Unsupported? ==> r == Err(UnsupportedLeaf(key))
    ensures Classify(raw).TypeToken? && ctx.create(Classify(raw).token, |log|).Err? ==>
      r == Err(ctx.create(Classify(raw).token, |log|).error)
    ensures Classify(raw).ArrayOf? && ctx.createMany(Classify(raw).element, |log|).Err? ==>
      r == Err(ctx.createMany(Classify(raw).element, |log|).error)
    ensures r.Ok? ==> AllAnswered(ctx, LeafCalls(raw), |log|)
    ensures ValidLeaf(raw) && r.Err? ==> FirstFailure(ctx, LeafCalls(raw), |log|, r.error)
    decreases raw, 1
  {
    match Classify(raw)
    case TypeToken(t) =>
      assert AnswersAll(ctx, LeafCalls(raw)) ==> Answerable(ctx, CreateCall(t)) by {
        assert CreateCall(t) in LeafCalls(raw);
      }
      assert [CreateCall(t)][..0] == [];
      var v :- ctx.create(t, |log|);
      Ok(Built(v, log + [CreateCall(t)]))
    case ArrayOf(e) =>
      assert AnswersAll(ctx, LeafCalls(raw)) ==> Answerable(ctx, CreateManyCall(e)) by {
        assert CreateManyCall(e) in LeafCalls(raw);
      }
      assert [CreateManyCall(e)][..0] == [];
      var vs :- ctx.createMany(e, |log|);
      Ok(Built(Arr(vs), log + [CreateManyCall(e)]))
    case Nested(props) =>
      var b :- BuildProps(props, ctx, log);
      Ok(Built(Obj(b.result), b.log))
    case BadArray(n) => Err(ArrayLeafLength(key, n))
    case Unsupported => Err(UnsupportedLeaf(key))
  }

  /** Builds the properties in template order, assigning each result to its
      key. */
  function BuildProps(props: seq<Prop>, ctx: Context, log: seq<Call>): (r: Result<Built<map<string, Value>>>)
    ensures r.Ok? ==> r.value.log == log + PropsCalls(props)
    ensures r.Ok? ==> Mirrors(props, r.value.result, ctx, |log|)
    ensures r.Ok? ==> ValidProps(props)
    ensures ValidProps(props) && AnswersAll(ctx, PropsCalls(props)) ==> r.Ok?
    ensures r.Ok? ==> AllAnswered(ctx, PropsCalls(props), |log|)
    ensures ValidProps(props) && r.Err? ==> FirstFailure(ctx, PropsCalls(props), |log|, r.error)
    decreases props, 0
  {
    if props == [] then Ok(Built(map[], log))
    else
      var front := props[..|props| - 1];
      var last := props[|props| - 1];
      assert props == front + [last];
      ValidPropsSnoc(front, last);
      assert PropsCalls(props) == PropsCalls(front) + LeafCalls(last.value);
      assert AnswersAll(ctx, PropsCalls(props)) ==>
        AnswersAll(ctx, PropsCalls(front)) && AnswersAll(ctx, LeafCalls(last.value));
      match BuildProps(front, ctx, log)
      case Err(e) =>
        FirstFailureBefore(ctx, PropsCalls(front), LeafCalls(last.value), |log|, e);
        Err(e)
      case Ok(done) =>
        match BuildLeaf(last.key, last.value, ctx, done.log)
        case Err(e) =>
          FirstFailureAfter(ctx, PropsCalls(front), LeafCalls(last.value), |log|, e);
          Err(e)
        case Ok(leaf) =>
          MirrorsExtend(front, last, done.result, leaf.result, ctx, |log|);
          AllAnsweredConcat(ctx, PropsCalls(front), LeafCalls(last.value), |log|);
          Ok(Built(done.result[last.key := leaf.result], leaf.log))
  }

  lemma KeysOfSnoc(front: seq<Prop>, last: Prop)
    ensures KeysOf(front + [last]) == KeysOf(front) + {last.key}
  {
    var props := front + [last];
    forall k | k in KeysOf(props) ensures k in KeysOf(front) + {last.key} {
      var i :| 0 <= i < |props| && props[i].key == k;
      if i < |front| { assert front[i] == props[i]; }
    }
    forall k | k in KeysOf(front) ensures k in KeysOf(props) {
      var i :| 0 <= i < |front| && front[i].key == k;
      assert props[i] == front[i];
    }
    assert props[|front|] == last;
  }

  /** A property of `front` that stays last with its key once `last` is
      appended keeps its value and its place in the request order. */
  lemma MirrorsExtendOne(front: seq<Prop>, last: Prop, fields: map<string, Value>, v: Value, ctx: Context, at: nat, i: nat)
    requires Mirrors(front, fields, ctx, at)
    requires LastWithKey(front + [last], i) && i < |front|
    ensures Fits((front + [last])[i].value, fields[last.key := v][(front + [last])[i].key], ctx,
                 at + |PropsCalls((front + [last])[..i])|)
  {
    var props := front + [last];
    assert props[i] == front[i];
    assert props[|front|] == last;
    assert LastWithKey(front, i) by {
      forall j | i < j < |front| ensures front[j].key != front[i].key {
        assert props[j] == front[j];
      }
    }
    assert props[..i] == front[..i];
    var k := front[i].key;
    assert fields[last.key := v][k] == fields[k];
    assert Fits(front[i].value, fields[k], ctx, at + |PropsCalls(front[..i])|);
  }

  /** The appended property itself fits at the position after `front`'s
      requests. */
  lemma MirrorsExtendLast(front: seq<Prop>, last: Prop, fields: map<string, Value>, v: Value, ctx: Context, at: nat)
    requires Fits(last.value, v, ctx, at + |PropsCalls(front)|)
    ensures Fits((front + [last])[|front|].value, fields[last.key := v][(front + [last])[|front|].key], ctx,
                 at + |PropsCalls((front + [last])[..|front|])|)
  {
  }

  lemma MirrorsExtend(front: seq<Prop>, last: Prop, fields: map<string, Value>, v: Value, ctx: Context, at: nat)
    requires Mirrors(front, fields, ctx, at)
    requires Fits(last.value, v, ctx, at + |PropsCalls(front)|)
    ensures Mirrors(front + [last], fields[last.key := v], ctx, at)
  {
    var props := front + [last];
    var fields' := fields[last.key := v];
    KeysOfSnoc(front, last);
    assert fields'.Keys == KeysOf(props);
    forall i | LastWithKey(props, i)
      ensures FitsAt(props, i, fields', ctx, at)
    {
      if i == |front| {
        MirrorsExtendLast(front, last, fields, v, ctx, at);
      } else {
        MirrorsExtendOne(front, last, fields, v, ctx, at, i);
      }
    }
  }

  lemma ValidPropsSnoc(front: seq<Prop>, last: Prop)
    ensures ValidProps(front + [last]) <==> ValidProps(front) && ValidLeaf(last.value)
  {
    var props := front + [last];
    assert props[|front|] == last;
    if ValidProps(props) {
      forall i | 0 <= i < |front| ensures ValidLeaf(front[i].value) {
        assert props[i] == front[i];
      }
    }
    if ValidProps(front) && ValidLeaf(last.value) {
      forall i | 0 <= i < |props| ensures ValidLeaf(props[i].value) {
        if i < |front| { assert props[i] == front[i]; }
      }
    }
  }

  /** `create()`: one object built from the bound template. */
  function Create(b: ObjectBuilder, ctx: Context, log: seq<Call>): (r: Result<Built<Value>>)
    ensures r.Ok? ==> r.value.result.Obj? && Mirrors(b.props, r.value.result.fields, ctx, |log|)
    ensures r.Ok? ==> r.value.log == log + PropsCalls(b.props)
    ensures !ValidProps(b.props) ==> r.Err?
    ensures ValidProps(b.props) && AnswersAll(ctx, PropsCalls(b.props)) ==> r.Ok?
    ensures r.Ok? ==> AllAnswered(ctx, PropsCalls(b.props), |log|)
    ensures ValidProps(b.props) && r.Err? ==> FirstFailure(ctx, PropsCalls(b.props), |log|, r.error)
  {
    var built :- BuildProps(b.props, ctx, log);
    Ok(Built(Obj(built.result), built.log))
  }

  /** The request log before the `i`-th of a run of `create()` calls that
      starts from `log`. */
  ghost function Round(b: ObjectBuilder, log: seq<Call>, i: nat): seq<Call>
  {
    log + Copies(PropsCalls(b.props), i)
  }

  /** The first `n` `create()` calls of a run that starts from `log` succeed. */
  ghost predicate RoundsOk(b: ObjectBuilder, ctx: Context, log: seq<Call>, n: nat)
  {
    forall k :: 0 <= k < n ==> Create(b, ctx, Round(b, log, k)).Ok?
  }

  /** Among the first `n` `create()` calls of a run that starts from `log`,
      the first that fails fails with `e`. */
  ghost predicate FirstFailingRound(b: ObjectBuilder, ctx: Context, log: seq<Call>, n: nat, e: Error)
  {
    exists i :: 0 <= i < n && Create(b, ctx, Round(b, log, i)) == Err(e) && RoundsOk(b, ctx, log, i)
  }

  /** `v` is an object mirroring the template when built as the `i`-th of a
      run of `create()` calls whose requests start at number `at`. */
  ghost predicate Instance(b: ObjectBuilder, v: Value, ctx: Context, at: nat, i: nat)
  {
    v.Obj? && Mirrors(b.props, v.fields, ctx, at + i * |PropsCalls(b.props)|)
  }

  /** `n` successive `create()` calls, each one continuing the request log of
      the one before. */
  function CreateN(b: ObjectBuilder, ctx: Context, n: nat, log: seq<Call>): (r: Result<Built<seq<Value>>>)
    ensures r.Ok? ==> |r.value.result| == n
    ensures r.Ok? ==> r.value.log == log + Copies(PropsCalls(b.props), n)
    ensures r.Ok? ==> forall i :: 0 <= i < n ==> Instance(b, r.value.result[i], ctx, |log|, i)
    ensures n > 0 && !ValidProps(b.props) ==> r.Err?
    ensures ValidProps(b.props) && AnswersAll(ctx, PropsCalls(b.props)) ==> r.Ok?
    ensures r.Ok? ==> RoundsOk(b, ctx, log, n)
    ensures r.Err? ==> FirstFailingRound(b, ctx, log, n, r.error)
    decreases n
  {
    if n == 0 then Ok(Built([], log))
    else
      match CreateN(b, ctx, n - 1, log)
      case Err(e) =>
        FailingRoundEarlier(b, ctx, log, n - 1, e);
        Err(e)
      case Ok(front) =>
        match Create(b, ctx, front.log)
        case Err(e) =>
          FailingRoundLast(b, ctx, log, n - 1, front.log, e);
          Err(e)
        case Ok(one) =>
          CreateNStep(b, ctx, n, log, front, one);
          Ok(Built(front.result + [one.result], one.log))
  }

  /** A failure among the first `n` calls stays the first one among `n + 1`. */
  lemma FailingRoundEarlier(b: ObjectBuilder, ctx: Context, log: seq<Call>, n: nat, e: Error)
    requires FirstFailingRound(b, ctx, log, n, e)
    ensures FirstFailingRound(b, ctx, log, n + 1, e)
  {
    var i :| 0 <= i < n && Create(b, ctx, Round(b, log, i)) == Err(e) && RoundsOk(b, ctx, log, i);
  }

  /** After `n` successful calls, a failing call `n` is the first failure. */
  lemma FailingRoundLast(b: ObjectBuilder, ctx: Context, log: seq<Call>, n: nat, at: seq<Call>, e: Error)
    requires at == log + Copies(PropsCalls(b.props), n)
    requires RoundsOk(b, ctx, log, n) && Create(b, ctx, at) == Err(e)
    ensures FirstFailingRound(b, ctx, log, n + 1, e)
  {
    assert Create(b, ctx, Round(b, log, n)) == Err(e);
  }

  /** After `n` successful calls, a successful call `n` makes `n + 1`. */
  lemma RoundsOkExtend(b: ObjectBuilder, ctx: Context, log: seq<Call>, n: nat, at: seq<Call>)
    requires at == log + Copies(PropsCalls(b.props), n)
    requires RoundsOk(b, ctx, log, n) && Create(b, ctx, at).Ok?
    ensures RoundsOk(b, ctx, log, n + 1)
  {
    assert Create(b, ctx, Round(b, log, n)).Ok?;
  }

  /** One more successful `create()` after `n - 1` of them extends the list,
      the log and the run of successful rounds by one. */
  lemma CreateNStep(b: ObjectBuilder, ctx: Context, n: nat, log: seq<Call>, front: Built<seq<Value>>, one: Built<Value>)
    requires n > 0
    requires |front.result| == n - 1
    requires front.log == log + Copies(PropsCalls(b.props), n - 1)
    requires forall i :: 0 <= i < n - 1 ==> Instance(b, front.result[i], ctx, |log|, i)
    requires RoundsOk(b, ctx, log, n - 1)
    requires Create(b, ctx, front.log) == Ok(one)
    ensures one.log == log + Copies(PropsCalls(b.props), n)
    ensures forall i :: 0 <= i < n ==> Instance(b, (front.result + [one.result])[i], ctx, |log|, i)
    ensures RoundsOk(b, ctx, log, n)
  {
    InstancesExtend(b, ctx, n, log, front, one);
    RoundsOkExtend(b, ctx, log, n - 1, front.log);
  }

  /** One more `create()` after `n - 1` of them extends the list and the log
      by one round. */
  lemma InstancesExtend(b: ObjectBuilder, ctx: Context, n: nat, log: seq<Call>, front: Built<seq<Value>>, one: Built<Value>)
    requires n > 0
    requires |front.result| == n - 1
    requires front.log == log + Copies(PropsCalls(b.props), n - 1)
    requires forall i :: 0 <= i < n - 1 ==> Instance(b, front.result[i], ctx, |log|, i)
    requires one.result.Obj? && Mirrors(b.props, one.result.fields, ctx, |front.log|)
    requires one.log == front.log + PropsCalls(b.props)
    ensures one.log == log + Copies(PropsCalls(b.props), n)
    ensures forall i :: 0 <= i < n ==> Instance(b, (front.result + [one.result])[i], ctx, |log|, i)
  {
    var calls := PropsCalls(b.props);
    CopiesSnoc(calls, n - 1);
    CopiesLength(calls, n - 1);
    assert |front.log| == |log| + (n - 1) * |calls|;
    assert Instance(b, one.result, ctx, |log|, n - 1);
    var all := front.result + [one.result];
    forall i | 0 <= i < n
      ensures Instance(b, all[i], ctx, |log|, i)
    {
      if i < n - 1 {
        assert all[i] == front.result[i];
      } else {
        assert all[i] == one.result;
      }
    }
  }

  /** `createMany(size?)`: `size` objects, or as many as the generator says
      when no size is given. */
  function CreateMany(b: ObjectBuilder, ctx: Context, size: Option<int>, generated: int, log: seq<Call>): (r: Result<Built<seq<Value>>>)
    ensures r.Ok? ==> |r.value.result| == Count(size, generated)
    ensures r.Ok? ==> r.value.log == log + Copies(PropsCalls(b.props), Count(size, generated))
    ensures r.Ok? ==> forall i :: 0 <= i < |r.value.result| ==> Instance(b, r.value.result[i], ctx, |log|, i)
    ensures Count(size, generated) > 0 && !ValidProps(b.props) ==> r.Err?
    ensures r.Err? ==> FirstFailingRound(b, ctx, log, Count(size, generated), r.error)
    ensures ValidProps(b.props) && AnswersAll(ctx, PropsCalls(b.props)) ==> r.Ok?
  {
    CreateN(b, ctx, Count(size, generated), log)
  }

  /** `s` repeated `n` times. */
  function Copies<T>(s: seq<T>, n: nat): seq<T>
  {
    if n == 0 then [] else s + Copies(s, n - 1)
  }

  lemma {:induction false} CopiesLength<T>(s: seq<T>, n: nat)
    ensures |Copies(s, n)| == n * |s|
  {
    if n > 0 {
      CopiesLength(s, n - 1);
    }
  }

  lemma {:induction false} CopiesSnoc<T>(s: seq<T>, n: nat)
    ensures Copies(s, n + 1) == Copies(s, n) + s
  {
    if n > 0 {
      CopiesSnoc(s, n - 1);
    }
  }

  // ---------------------------------------------------------------------
  // Properties stated by the test suite

  /** A template with no properties builds an object with no properties and
      asks nothing of the context. */
  lemma EmptyTemplate(ctx: Context, log: seq<Call>)
    ensures Create(ObjectBuilder([]), ctx, log) == Ok(Built(Obj(map[]), log))
  {
  }

  /** A string value makes exactly one `context.create(token)` request, and
      its answer becomes the property's value. */
  lemma SingleToken(key: string, token: string, ctx: Context, log: seq<Call>)
    requires ctx.create(token, |log|).Ok?
    ensures Create(ObjectBuilder([Prop(key, RStr(token))]), ctx, log) ==
      Ok(Built(Obj(map[key := ctx.create(token, |log|).value]), log + [CreateCall(token)]))
  {
    var props := [Prop(key, RStr(token))];
    assert props[..0] == [];
    assert BuildProps(props[..0], ctx, log) == Ok(Built(map[], log));
    assert BuildLeaf(key, RStr(token), ctx, log) ==
      Ok(Built(ctx.create(token, |log|).value, log + [CreateCall(token)]));
  }

  /** A one-element array makes exactly one `context.createMany(element)`
      request, whatever the element is, and its list becomes the property's
      value. */
  lemma SingleArray(key: string, element: Raw, ctx: Context, log: seq<Call>)
    requires ctx.createMany(element, |log|).Ok?
    ensures Create(ObjectBuilder([Prop(key, RArr([element]))]), ctx, log) ==
      Ok(Built(Obj(map[key := Arr(ctx.createMany(element, |log|).value)]), log + [CreateManyCall(element)]))
  {
    var props := [Prop(key, RArr([element]))];
    assert props[..0] == [];
    assert BuildProps(props[..0], ctx, log) == Ok(Built(map[], log));
    assert Classify(RArr([element])) == ArrayOf(element);
    assert BuildLeaf(key, RArr([element]), ctx, log) ==
      Ok(Built(Arr(ctx.createMany(element, |log|).value), log + [CreateManyCall(element)]));
  }

  /** An array with zero or several elements, or a number, is accepted by the
      constructor and makes `create` fail with a plain `Error`. */
  lemma MalformedLeafFails(key: string, raw: Raw, ctx: Context, log: seq<Call>)
    requires raw == RArr([]) || (raw.RArr? && |raw.items| >= 2) || raw.RNum?
    requires WellFormed(raw)
    ensures New(RObj([Prop(key, raw)])).Ok?
    ensures Create(New(RObj([Prop(key, raw)])).value, ctx, log).Err?
    ensures Create(New(RObj([Prop(key, raw)])).value, ctx, log).error.Class() == PlainError
  {
    var props := [Prop(key, raw)];
    assert props[..0] == [];
    assert BuildProps(props[..0], ctx, log) == Ok(Built(map[], log));
    assert BuildLeaf(key, raw, ctx, log).Err?;
    assert BuildLeaf(key, raw, ctx, log).error.Class() == PlainError;
  }

  /** A nested template object builds a nested object with the same key:
      `{address: {city: "CityType"}}` becomes `{address: {city: <answer>}}`. */
  lemma NestedTemplate(outer: string, inner: string, token: string, ctx: Context, log: seq<Call>)
    requires ctx.create(token, |log|).Ok?
    ensures Create(ObjectBuilder([Prop(outer, RObj([Prop(inner, RStr(token))]))]), ctx, log) ==
      Ok(Built(Obj(map[outer := Obj(map[inner := ctx.create(token, |log|).value])]), log + [CreateCall(token)]))
  {
    var sub := [Prop(inner, RStr(token))];
    var props := [Prop(outer, RObj(sub))];
    assert props[..0] == [] && sub[..0] == [];
    assert BuildProps(sub[..0], ctx, log) == Ok(Built(map[], log));
    assert BuildLeaf(inner, RStr(token), ctx, log) ==
      Ok(Built(ctx.create(token, |log|).value, log + [CreateCall(token)]));
    assert BuildProps(sub, ctx, log) ==
      Ok(Built(map[inner := ctx.create(token, |log|).value], log + [CreateCall(token)]));
    assert BuildProps(props[..0], ctx, log) == Ok(Built(map[], log));
    assert BuildLeaf(outer, RObj(sub), ctx, log) ==
      Ok(Built(Obj(map[inner := ctx.create(token, |log|).value]), log + [CreateCall(token)]));
    assert BuildProps(props, ctx, log) ==
      Ok(Built(map[outer := Obj(map[inner := ctx.create(token, |log|).value])], log + [CreateCall(token)]));
  }
}

=== FILE: outcomes.dfy ===
/** Errors raised by the generation engine and the result type that carries them.

    The library signals every failure by throwing one of three JavaScript error
    classes; the model keeps the taxonomy as a datatype and returns it in a
    `Result` instead of throwing.
 */
module Outcomes {

  /** The JavaScript error class a failure is thrown as. */
  datatype ErrorClass = TypeError | ReferenceError | PlainError

  datatype Error =
    /** `new ObjectBuilder(t, …)` with a template that is not an object. */
    | NotATemplate
    /** A template array leaf whose length is not exactly one. */
    | ArrayLeafLength(key: string, length: nat)
    /** A template leaf that is neither a string, a one-element array nor an object. */
    | UnsupportedLeaf(key: string)
    /** `No builder defined for type or alias '<type>'`. */
    | NoBuilder(typeName: string)
    /** The same lookup failure for a `createMany` request whose element is
        not a type name, which no builder is registered under. */
    | NoBuilderForElement
    /** `TypeComposer can only be used with type 'object'`. */
    | NotComposable(typeName: string)
    /** `Property '<property>' does not exist on type '<type>'`. */
    | MissingProperty(property: string, typeName: string)
  {
    /** The error class the source throws for this failure. */
    function Class(): ErrorClass
    {
      match this
      case NotATemplate => TypeError
      case NotComposable(_) => TypeError
      case NoBuilder(_) => ReferenceError
      case NoBuilderForElement => ReferenceError
      case MissingProperty(_, _) => ReferenceError
      case ArrayLeafLength(_, _) => PlainError
      case UnsupportedLeaf(_) => PlainError
    }
  }

  /** A value, or the error that was thrown instead of returning it. */
  datatype Result<+T> = Ok(value: T) | Err(error: Error) {

    predicate IsFailure() {
      Err?
    }

    function PropagateFailure<U>(): Result<U>
      requires Err?
    {
      Err(error)
    }

    function Extract(): T
      requires Ok?
    {
      value
    }
  }

  datatype Option<+T> = None | Some(value: T)
}

=== FILE: repetition.dfy ===
/** The shared shape of every `createMany`: pick a count, then call `create`
    that many times in order, stopping at the first failure.
 */
module Repetition {
  import opened Outcomes

  /** How many elements `createMany(size?)` produces. The source replaces a
      falsy `size` (`undefined` or `0`) by the generator's output and then runs
      `for (let i = 0; i < size; i++)`, so a negative count yields no element. */
  function Count(size: Option<int>, generated: int): (n: nat)
    ensures size.Some? && size.value > 0 ==> n == size.value
    ensures size.Some? && size.value < 0 ==> n == 0
    ensures (size.None? || size.value == 0) && generated >= 0 ==> n == generated
    ensures (size.None? || size.value == 0) && generated < 0 ==> n == 0
  {
    var requested := if size.Some? && size.value != 0 then size.value else generated;
    if requested > 0 then requested else 0
  }

  /** The elements of a successful run are exactly the results of the calls,
      in call order. */
  ghost predicate AllOk<T>(n: nat, call: nat -> Result<T>, xs: seq<T>)
  {
    |xs| == n && forall i :: 0 <= i < n ==> call(i) == Ok(xs[i])
  }

  /** `[call(0), …, call(n - 1)]`, or the error of the first call that fails. */
  function Repeat<T>(n: nat, call: nat -> Result<T>): (r: Result<seq<T>>)
    ensures r.Ok? <==> forall i :: 0 <= i < n ==> call(i).Ok?
    ensures r.Ok? ==> AllOk(n, call, r.value)
    ensures r.Err? ==>
      exists i :: 0 <= i < n && call(i) == Err(r.error) &&
        forall j :: 0 <= j < i ==> call(j).Ok?
  {
    if n == 0 then Ok([])
    else
      var front :- Repeat(n - 1, call);
      var last :- call(n - 1);
      Ok(front + [last])
  }

  /** The calls of a run whose call `i` is answered at draw `draw + i`. */
  function Shifted<T>(g: nat -> Result<T>, draw: nat): (call: nat -> Result<T>)
    ensures forall i: nat :: call(i) == g(draw + i)
  {
    (i: nat) => g(draw + i)
  }

  /** A run whose call `i` is `g(draw + i)`: a failure is that of the first
      failing `g(d)` with `d` in range, and a success means every one of them
      succeeded. */
  lemma RepeatShifted<T>(n: nat, g: nat -> Result<T>, draw: nat)
    ensures Repeat(n, Shifted(g, draw)).Err? ==>
      exists d :: draw <= d < draw + n && g(d) == Err(Repeat(n, Shifted(g, draw)).error) &&
        forall e :: draw <= e < d ==> g(e).Ok?
    ensures Repeat(n, Shifted(g, draw)).Ok? ==> forall d :: draw <= d < draw + n ==> g(d).Ok?
  {
    var call := Shifted(g, draw);
    var r := Repeat(n, call);
    if r.Err? {
      var i :| 0 <= i < n && call(i) == Err(r.error) && forall j :: 0 <= j < i ==> call(j).Ok?;
      assert g(draw + i) == Err(r.error);
      forall e | draw <= e < draw + i ensures g(e).Ok? {
        assert call(e - draw).Ok?;
      }
    } else {
      forall d | draw <= d < draw + n ensures g(d).Ok? {
        assert call(d - draw).Ok?;
      }
    }
  }
}

=== FILE: template.dfy ===
/** Templates as the caller writes them for `fixture.from(template)`.

    A template object is kept with its properties in the order JavaScript
    enumerates them, so that the requests the builder makes form one definite
    sequence. That order is insertion order for the string keys a template
    normally has; keys that look like array indices (`"0"`, `"12"`) come first
    in ascending numeric order, and the caller is expected to list them so.
    A JavaScript object never holds a key twice, so a template in which some
    object, at any depth, repeats a key describes no value the source can
    receive; `WellFormed` names that condition.
 */
module Template {

  /** A template value. */
  datatype Raw =
    | RStr(s: string)
    | RArr(items: seq<Raw>)
    | RObj(props: seq<Prop>)
    | RNum(n: int)
    | RBool(b: bool)
    | RNull
    | RUndefined

  /** One property of a template object. */
  datatype Prop = Prop(key: string, value: Raw)

  /** No two properties of the object share a key. */
  predicate DistinctKeys(props: seq<Prop>)
  {
    forall i, j :: 0 <= i < j < |props| ==> props[i].key != props[j].key
  }

  /** Every object of the template, at any depth, holds each key once. */
  predicate WellFormed(raw: Raw)
    decreases raw
  {
    match raw
    case RObj(props) => DistinctKeys(props) && forall i :: 0 <= i < |props| ==> WellFormed(props[i].value)
    case RArr(items) => forall i :: 0 <= i < |items| ==> WellFormed(items[i])
    case _ => true
  }
}

=== FILE: type_composer.dfy ===
/** `TypeComposer`: builds one instance of a named type through the context and
    replays a queue of modifications over it.

    Queuing (`do`, `with`, `without`) only records the modification; nothing is
    evaluated or checked until `create`. A `do` action is modelled as a pure
    function from the object's properties to its new properties, and a `with`
    action as a pure function from the property's value to its replacement.
 */
module TypeComposer {
  import opened Outcomes
  import opened Values
  import opened Context
  import opened Repetition

  datatype Modification =
    /** `do(action)`: the action runs on the whole object. */
    | Act(action: map<string, Value> -> map<string, Value>)
    /** `with(property, fn)`: replace the property's value by `fn` of it. */
    | Update(property: string, fn: Value -> Value)
    /** `without(property)`: delete the property. */
    | Remove(property: string)

  datatype Composer = Composer(typeName: string, modifications: seq<Modification>)

  /** `new TypeComposer(type, context, generator)`: an empty queue. */
  function New(typeName: string): (c: Composer)
    ensures c.typeName == typeName && c.modifications == []
  {
    Composer(typeName, [])
  }

  /** Appends one modification to the end of the queue. */
  function Enqueue(c: Composer, m: Modification): Composer
  {
    c.(modifications := c.modifications + [m])
  }

  /** `do(action)`. */
  function Do(c: Composer, action: map<string, Value> -> map<string, Value>): (r: Composer)
    ensures r.typeName == c.typeName
    ensures |r.modifications| == |c.modifications| + 1
    ensures r.modifications[..|c.modifications|] == c.modifications
    ensures r.modifications[|c.modifications|] == Act(action)
  {
    Enqueue(c, Act(action))
  }

  /** `with(property, fn)`. */
  function With(c: Composer, property: string, fn: Value -> Value): (r: Composer)
    ensures r.typeName == c.typeName
    ensures |r.modifications| == |c.modifications| + 1
    ensures r.modifications[..|c.modifications|] == c.modifications
    ensures r.modifications[|c.modifications|] == Update(property, fn)
  {
    Enqueue(c, Update(property, fn))
  }

  /** `without(property)`. */
  function Without(c: Composer, property: string): (r: Composer)
    ensures r.typeName == c.typeName
    ensures |r.modifications| == |c.modifications| + 1
    ensures r.modifications[..|c.modifications|] == c.modifications
    ensures r.modifications[|c.modifications|] == Remove(property)
  {
    Enqueue(c, Remove(property))
  }

  /** What a `with` action is handed: a fresh shallow copy of an array or an
      object, the value itself otherwise. */
  datatype Argument = ArrayCopy(items: seq<Value>) | ObjectCopy(fields: map<string, Value>) | AsIs(v: Value) {
    function AsValue(): Value
    {
      match this
      case ArrayCopy(items) => Arr(items)
      case ObjectCopy(fields) => Obj(fields)
      case AsIs(v) => v
    }
  }

  function ArgumentFor(current: Value): (a: Argument)
    ensures a.ArrayCopy? <==> IsArray(current)
    ensures a.ObjectCopy? <==> IsObject(current)
    ensures a.AsValue() == current
  {
    if IsArray(current) then ArrayCopy(current.items)
    else if IsObject(current) then ObjectCopy(current.fields)
    else AsIs(current)
  }

  /** Applies one modification to the object's properties. */
  function Apply(typeName: string, m: Modification, obj: map<string, Value>): (r: Result<map<string, Value>>)
    ensures m.Act? ==> r == Ok(m.action(obj))
    ensures m.Update? ==> (r.Err? <==> Get(obj, m.property) == Undefined)
    ensures m.Update? && r.Err? ==> r.error == MissingProperty(m.property, typeName)
    ensures m.Update? && r.Ok? ==>
      && r.value.Keys == obj.Keys
      && r.value[m.property] == m.fn(obj[m.property])
      && forall k :: k in obj && k != m.property ==> r.value[k] == obj[k]
    ensures m.Remove? ==>
      && r.Ok?
      && r.value.Keys == obj.Keys - {m.property}
      && forall k :: k in r.value ==> r.value[k] == obj[k]
  {
    match m
    case Act(action) => Ok(action(obj))
    case Update(property, fn) =>
      var current := Get(obj, property);
      if current == Undefined then Err(MissingProperty(property, typeName))
      else Ok(obj[property := fn(ArgumentFor(current).AsValue())])
    case Remove(property) => Ok(obj - {property})
  }

  /** True when `k` is the property of some `with` or `without` in `mods`. */
  predicate Names(mods: seq<Modification>, k: string)
  {
    exists i :: 0 <= i < |mods| && !mods[i].Act? && mods[i].property == k
  }

  /** Applies `mods` in queue order, stopping at the first failure. Without
      `do` actions no property appears, and every property no modification
      names keeps its value. */
  function Replay(typeName: string, mods: seq<Modification>, obj: map<string, Value>): (r: Result<map<string, Value>>)
    ensures (forall i :: 0 <= i < |mods| ==> !mods[i].Act?) && r.Ok? ==>
      && r.value.Keys <= obj.Keys
      && forall k :: k in obj && !Names(mods, k) ==> k in r.value && r.value[k] == obj[k]
    ensures (forall i :: 0 <= i < |mods| ==> mods[i].Remove?) ==>
      r.Ok? && forall k :: k in obj && !Names(mods, k) ==> k in r.value
    decreases |mods|
  {
    if mods == [] then Ok(obj)
    else
      var next :- Apply(typeName, mods[0], obj);
      Replay(typeName, mods[1..], next)
  }

  /** `create()`: a base instance from the context, which must be an object,
      with the queued modifications applied to it. With nothing queued the
      base is returned as it is; without `do` actions no property appears and
      every property no modification names keeps its base value. */
  function Create(c: Composer, ctx: Context, draw: nat): (r: Result<Value>)
    ensures ctx.create(c.typeName, draw).Err? ==> r == ctx.create(c.typeName, draw)
    ensures ctx.create(c.typeName, draw).Ok? && !IsObject(ctx.create(c.typeName, draw).value) ==>
      r == Err(NotComposable(c.typeName))
    ensures r.Ok? ==> IsObject(r.value)
    ensures r.Ok? ==> ctx.create(c.typeName, draw).Ok? && IsObject(ctx.create(c.typeName, draw).value)
    ensures c.modifications == [] && ctx.create(c.typeName, draw).Ok? && IsObject(ctx.create(c.typeName, draw).value) ==>
      r == ctx.create(c.typeName, draw)
    ensures r.Ok? && (forall i :: 0 <= i < |c.modifications| ==> !c.modifications[i].Act?) ==>
      && r.value.fields.Keys <= ctx.create(c.typeName, draw).value.fields.Keys
      && forall k :: k in ctx.create(c.typeName, draw).value.fields && !Names(c.modifications, k) ==>
           k in r.value.fields && r.value.fields[k] == ctx.create(c.typeName, draw).value.fields[k]
    ensures
      && (forall i :: 0 <= i < |c.modifications| ==> c.modifications[i].Remove?)
      && ctx.create(c.typeName, draw).Ok? && IsObject(ctx.create(c.typeName, draw).value)
      ==> r.Ok?
  {
    var base :- ctx.create(c.typeName, draw);
    if !IsObject(base) then Err(NotComposable(c.typeName))
    else
      var fields :- Replay(c.typeName, c.modifications, base.fields);
      Ok(Obj(fields))
  }

  /** `createMany(size?)`: instance `i` is the composer's `create` answered by
      the context's `i`-th request from `draw` on. */
  function CreateMany(c: Composer, ctx: Context, size: Option<int>, generated: int, draw: nat): (r: Result<seq<Value>>)
    ensures r.Ok? ==> |r.value| == Count(size, generated)
    ensures r.Ok? ==> forall i :: 0 <= i < |r.value| ==> Create(c, ctx, draw + i) == Ok(r.value[i])
    ensures r.Err? ==>
      exists d :: draw <= d < draw + Count(size, generated) && Create(c, ctx, d) == Err(r.error) &&
        forall e :: draw <= e < d ==> Create(c, ctx, e).Ok?
  {
    var g := (d: nat) => Create(c, ctx, d);
    assert forall d: nat :: g(d) == Create(c, ctx, d);
    var r := Repeat(Count(size, generated), Shifted(g, draw));
    RepeatShifted(Count(size, generated), g, draw);
    r
  }

  // ---------------------------------------------------------------------
  // Properties of the replay

  /** Modifications apply strictly in queue order: replaying `a + b` is
      replaying `a` and then `b` on the object `a` left. */
  lemma {:induction false} ReplayConcat(typeName: string, a: seq<Modification>, b: seq<Modification>, obj: map<string, Value>)
    ensures Replay(typeName, a + b, obj) ==
      match Replay(typeName, a, obj)
      case Ok(o) => Replay(typeName, b, o)
      case Err(e) => Err(e)
    decreases |a|
  {
    if a == [] {
      assert a + b == b;
    } else {
      assert (a + b)[0] == a[0];
      assert (a + b)[1..] == a[1..] + b;
      match Apply(typeName, a[0], obj)
      case Ok(next) =>
        ReplayConcat(typeName, a[1..], b, next);
      case Err(_) =>
    }
  }

  /** Queuing a modification defers it to `create`: the composer with one more
      modification creates what the original creates, then applies it. */
  lemma EnqueueThenCreate(c: Composer, m: Modification, ctx: Context, draw: nat)
    ensures Create(Enqueue(c, m), ctx, draw) ==
      match Create(c, ctx, draw)
      case Ok(v) =>
        (match Apply(c.typeName, m, v.fields)
         case Ok(o) => Ok(Obj(o))
         case Err(e) => Err(e))
      case Err(e) => Err(e)
  {
    var base := ctx.create(c.typeName, draw);
    if base.Ok? && IsObject(base.value) {
      ReplayConcat(c.typeName, c.modifications, [m], base.value.fields);
      match Replay(c.typeName, c.modifications, base.value.fields)
      case Ok(o) =>
        assert Replay(c.typeName, [m], o) == (match Apply(c.typeName, m, o) case Ok(o') => Ok(o') case Err(e) => Err(e));
      case Err(_) =>
    }
  }

  /** A base instance that is not an object fails with a `TypeError`, whatever
      modifications are queued. */
  lemma NotAnObjectFailsFirst(c: Composer, ctx: Context, draw: nat, mods: seq<Modification>)
    requires ctx.create(c.typeName, draw).Ok?
    requires !IsObject(ctx.create(c.typeName, draw).value)
    ensures Create(c.(modifications := mods), ctx, draw).Err?
    ensures Create(c.(modifications := mods), ctx, draw).error.Class() == TypeError
  {
  }

  /** `with` on a property an earlier `without` removed fails with a
      `ReferenceError`. */
  lemma WithAfterWithoutFails(typeName: string, p: string, fn: Value -> Value, obj: map<string, Value>)
    ensures Replay(typeName, [Remove(p), Update(p, fn)], obj) == Err(MissingProperty(p, typeName))
    ensures MissingProperty(p, typeName).Class() == ReferenceError
  {
  }

  /** `with` on a property the object has replaces that property's value by
      the action's result on it, and nothing else. */
  lemma WithPresent(typeName: string, p: string, fn: Value -> Value, obj: map<string, Value>)
    requires p in obj && obj[p] != Undefined
    ensures Replay(typeName, [Update(p, fn)], obj) == Ok(obj[p := fn(obj[p])])
  {
  }

  /** Removing a property twice is removing it once; the second `without` does
      not fail on the absent key. */
  lemma WithoutTwice(typeName: string, p: string, obj: map<string, Value>)
    ensures Replay(typeName, [Remove(p), Remove(p)], obj) == Replay(typeName, [Remove(p)], obj)
    ensures Replay(typeName, [Remove(p)], obj) == Ok(obj - {p})
  {
    assert [Remove(p), Remove(p)][1..] == [Remove(p)];
    assert [Remove(p)][1..] == [];
    assert obj - {p} - {p} == obj - {p};
  }

  /** `build(type).with(property, fn).create()` on a base instance without
      that property fails with a `ReferenceError`. */
  lemma WithMissingFails(typeName: string, p: string, fn: Value -> Value, ctx: Context, draw: nat)
    requires ctx.create(typeName, draw).Ok?
    requires IsObject(ctx.create(typeName, draw).value)
    requires p !in ctx.create(typeName, draw).value.fields
    ensures Create(With(New(typeName), p, fn), ctx, draw) == Err(MissingProperty(p, typeName))
  {
  }
}

=== FILE: values.dfy ===
/** The JavaScript values the engine produces and inspects, with the two runtime
    checks it relies on (truthiness and the object/array tests).
 */
module Values {

  /** A JavaScript value. Numbers are integers; objects are maps from property
      name to value, compared by contents rather than by reference. */
  datatype Value =
    | Undefined
    | Null
    | Bool(b: bool)
    | Num(n: int)
    | Str(s: string)
    | Sym(description: string)
    | Arr(items: seq<Value>)
    | Obj(fields: map<string, Value>)

  /** JavaScript truthiness: `undefined`, `null`, `false`, `0` and `""` are falsy. */
  predicate Truthy(v: Value)
  {
    match v
    case Undefined => false
    case Null => false
    case Bool(b) => b
    case Num(n) => n != 0
    case Str(s) => s != ""
    case _ => true
  }

  /** `isArray` of the library's utilities. */
  predicate IsArray(v: Value)
  {
    v.Arr?
  }

  /** `isObject` of the library's utilities: a non-null, non-array object. */
  predicate IsObject(v: Value)
  {
    v.Obj?
  }

  /** Reading `object[property]`: an absent property reads as `undefined`. */
  function Get(fields: map<string, Value>, property: string): (v: Value)
    ensures property !in fields ==> v == Undefined
    ensures property in fields ==> v == fields[property]
  {
    if property in fields then fields[property] else Undefined
  }

  /** The falsy values are exactly the five the engine's `if (x)` tests ignore. */
  lemma FalsyValues(v: Value)
    ensures !Truthy(v) <==> v in {Undefined, Null, Bool(false), Num(0), Str("")}
  {
  }
}
